=== FILE: README.md ===
# Sereno chat: user services, modelled in Dafny

This project models the user-side service layer of the Sereno chat backend
(`chat/services/user_services.py`) over an abstract, in-memory version of the
database defined by `chat/models.py`.

- `outcomes.dfy` (module `Outcomes`): `Option`, `Result`, and the three exceptions the
  services raise or let through (`ValueError`, `ValidationError`, `IntegrityError`).
- `models.dfy` (module `Models`): one datatype per model (`Profile`, `Message`,
  `Attachment`, `Notification`, `FriendRequest`, `Chat`) and the `Store` that holds them.
  - `WellFormed` says that no record refers to a missing user or message. It also says
    that every friend request sits under its own `(from_user, to_user)` pair, that
    friend-request ids are distinct, and that every primary key handed out so far is
    below the counter `nextId`. That covers the profile, message, attachment,
    notification, friend-request and chat tables, so a key taken from `nextId` is fresh.
  - Profiles are a map from user to profile, so the one-to-one rule holds by
    construction. Friend requests are a map keyed by the ordered pair, so
    `unique_together` holds by construction.
  - The file also holds notification creation (the `is_read` default) and the cascading
    deletes of a message and of a user.
- `user_services.dfy` (module `UserServices`): the seven service functions. Each one is a
  transition that returns the new store and what the call returned or raised (`Step`).

Modelling choices:

- A profile is a map from attribute name to `Value`. Python's `hasattr(profile, f)` is
  modelled as "`f` is a key of that map".
- The profile table's defaults and NOT NULL columns are a `Schema` parameter.
  `ShownSchema` is the schema in `chat/models.py`. Under it, `age` is NOT NULL and has
  no default, so `Profile.objects.create(user=user)` always fails with IntegrityError.
  `ShownSchemaCannotCreateProfile` proves this.
- `full_clean` is an uninterpreted parameter `valid: Profile -> bool`.
- Creation times come from a natural-number logical clock. Primary keys come from a
  single counter, `nextId`.
- `update_profile` does not run inside a transaction. If it creates the profile and then
  validation fails, the new profile stays in the store: on a validation failure the
  store equals the store right after the get-or-create step.
- `update_profile` passes `save` every whitelisted name that is a profile attribute,
  not only the keys it applied. Django's `save` raises ValueError when `update_fields`
  names the primary key. So a caller whitelist containing `id` makes a valid update
  raise ValueError, and nothing is saved. `UpdateProfile` models this.
- The profile's `user` attribute is a one-to-one link. Assigning it anything other than
  None or a user instance raises ValueError at the assignment, before validation and
  before any save. `Value.Ref` stands for a user instance; `SetattrRefused` is this case.
- Friend requests have no acceptance field in the shown schema, so the live branch of
  `get_friends` is the mutual-request branch. The acceptance-flag branch is modelled
  too, as `FriendMode.AcceptedFlag`: a mode fixed by the caller, not probed on each call.
- The schema does not forbid a friend request from a user to themselves. Only
  `send_friend_request` refuses one. `NoSelfRequests` is therefore an invariant of the
  service (`SendFriendRequestKeepsNoSelfRequests`), not of the store.

## Model

| member | source | states |
|---|---|---|
| Models.CreateNotification | chat/models.py:37-41 | A new notification gets the given user and message and `is_read = false`. When every id is below the counter, its id is fresh and existing notifications are unchanged. The other tables are unchanged. A dangling user or message raises IntegrityError and changes nothing. Well-formedness is preserved. |
| Models.AtMostOneRequestPerPair | chat/models.py:46-52 | In a well-formed store, two friend-request rows with the same `(from_user, to_user)` are the same row. |
| Models.DeleteMessage | chat/models.py:27-41 | Deleting a message removes exactly the notifications and attachments that reference it. Every other record is kept unchanged, and well-formedness is preserved. |
| Models.DeleteUser | chat/models.py:9-60 | Deleting a user removes their profile, their sent messages and those messages' notifications and attachments, their own notifications and attachments, requests in either direction, and the chats they created. They are dropped from other chats' members. Everything else is kept unchanged, and well-formedness (no dangling reference) is preserved. |
| Models.DeleteUserLeavesNoTrace | chat/models.py:9-60 | After the cascade, no remaining record refers to the deleted user. |
| UserServices.GetOrCreateProfile | chat/services/user_services.py:20-24 | Returns the existing profile unchanged. Otherwise it inserts one, and succeeds iff the user exists and no NOT NULL column is NULL. On success only that user's profile is added; on failure it raises IntegrityError and changes nothing. |
| UserServices.GetProfile | chat/services/user_services.py:13-26 | Without creation, the store is unchanged and the result is None exactly when the user has no profile. With creation, the result is never None. On success the returned profile is the one stored for the user, and other profiles are unchanged. Nothing outside the profile table and the key counter ever changes. |
| UserServices.GetProfileCreateIdempotent | chat/services/user_services.py:20-24 | A second get-or-create returns the same profile and changes nothing. |
| UserServices.ShownSchemaCannotCreateProfile | chat/services/user_services.py:23-24 | Under the shown schema, creating a missing profile raises IntegrityError and leaves the store unchanged. |
| UserServices.CreateSucceedsWithDefaults | chat/services/user_services.py:23-24 | Under a schema whose defaults fill every NOT NULL column, creation for a known user succeeds. It adds exactly one profile, for that user. |
| UserServices.NewProfileHasColumns | chat/models.py:18-22 | A newly created profile has exactly the columns `id`, `user`, `age`, `image`, `bio`. |
| UserServices.GetOrCreatePreservesWellFormed | chat/services/user_services.py:20-24 | Getting or creating a profile keeps the store well-formed: the new row's key is the counter, which then advances. |
| UserServices.CreatedProfileIdFresh | chat/services/user_services.py:23-24 | In a well-formed store, a newly created profile's primary key differs from that of every stored profile. |
| UserServices.SaveOfOverlay | chat/services/user_services.py:63 | Saving the whitelisted attribute columns (`UpdateFields`) of the updated profile stores exactly the updated profile. |
| UserServices.ApplyData | chat/services/user_services.py:44-50 | The walk stops with `refused` exactly when it would assign a value other than None or a user to the whitelisted `user` attribute. Otherwise it gives the reference update `Overlay`: whitelisted profile attributes take the supplied values and nothing else changes. `changed` is true iff at least one key applied. |
| UserServices.UpdateProfile | chat/services/user_services.py:29-64 | Writes each key of `data` that is whitelisted and a profile attribute, and no other key; every other attribute keeps its value. If no key applies, it returns the profile without saving. If validation fails, it raises ValidationError and the stored profile is untouched. Assigning a non-user value to a whitelisted `user` attribute raises ValueError before validation and saves nothing. A valid update that applies is saved and returned, except that it raises ValueError, saving nothing, when the whitelist names the primary key. ValueError arises in these two cases and no other. On success the stored profile equals the returned one, and only this user's profile changes. A failed creation propagates and changes nothing. The primary key is never rewritten, so a well-formed store stays well-formed. |
| UserServices.DefaultWhitelistDropsDisplayName | chat/services/user_services.py:40-50 | With the default whitelist on a profile with the shown columns, only `bio`, `age` and `image` can be written; `display_name` never is, and the `user` assignment never raises. |
| UserServices.SendFriendRequest | chat/services/user_services.py:67-92 | A self request raises ValueError and changes nothing. An existing `(a, b)` request is returned and nothing changes. Otherwise exactly one request `(a, b)` is added when both users exist, and IntegrityError is raised otherwise. Existing requests are never changed. |
| UserServices.SendFriendRequestIdempotent | chat/services/user_services.py:80-89 | A second identical call returns the same result and leaves the store as the first call left it, so only one row exists. |
| UserServices.SendFriendRequestPreservesWellFormed | chat/services/user_services.py:80-89 | Sending a request keeps the store well-formed: keys match records, no dangling users, and request ids are distinct and fresh. |
| UserServices.SendFriendRequestKeepsNoSelfRequests | chat/services/user_services.py:76-77 | If no self request exists before a call, none exists after it. |
| UserServices.GetFriends | chat/services/user_services.py:95-119 | Every friend returned is an existing user. |
| UserServices.MutualFriendsIff | chat/services/user_services.py:116-119 | In mutual mode, `v` is a friend of `u` iff both `u→v` and `v→u` requests exist. |
| UserServices.AcceptedFriendsIff | chat/services/user_services.py:104-114 | In acceptance-flag mode, `v` is a friend of `u` iff an accepted request joins them in either direction. |
| UserServices.FriendsSymmetric | chat/services/user_services.py:95-119 | `v` is a friend of `u` iff `u` is a friend of `v`, in either mode. |
| UserServices.NobodyIsTheirOwnFriend | chat/services/user_services.py:116-119 | In a store without self requests, no user is their own friend. |
| UserServices.GetNotifications | chat/services/user_services.py:122-126 | Lists exactly the user's notifications, each once, in non-increasing creation time. |
| UserServices.MarkNotificationAsRead | chat/services/user_services.py:129-141 | Returns None iff the id is absent, and then nothing changes. Otherwise it returns the notification with `is_read = true`, which is also what is stored. Only that notification's `is_read` may change, and nothing is written if it was already read. |
| UserServices.MarkNotificationAsReadIdempotent | chat/services/user_services.py:133-138 | A second call returns the same notification and changes nothing. |
| UserServices.DeleteNotification | chat/services/user_services.py:144-154 | Returns true iff the id existed. Afterwards the id is absent and every other notification and table is unchanged. |
| UserServices.DeleteNotificationTwice | chat/services/user_services.py:144-154 | A repeated delete returns false and changes nothing. |
| UserServices.GetProfilePreservesWellFormed | chat/services/user_services.py:20-24 | Getting or creating a profile keeps the store well-formed. |
| UserServices.MarkNotificationAsReadPreservesWellFormed | chat/services/user_services.py:133-138 | Marking a notification read keeps the store well-formed. |
| UserServices.DeleteNotificationPreservesWellFormed | chat/services/user_services.py:148-151 | Deleting a notification keeps the store well-formed. |

## Left out

- `chat/services/message_services.py` is not part of this model. `send_message` passes a
  `chat` field that `Message` does not have. The other message functions are empty
  stubs. Chat-membership and message edit/delete rules are implemented nowhere.
- `chat/serializers.py` and `chat/admin.py` are declarative configuration with no logic.
- Transactions and races: `transaction.atomic` and the IntegrityError re-raise in
  `send_friend_request` exist only for concurrent callers. Get-or-create is one atomic step.
- Logging: it has no effect on control flow.
- The `profile is None` → ValueError branch of `update_profile` is dead code. Getting a
  profile with creation either returns one or raises, as `GetProfile`'s contract proves.
  `UpdateProfile` therefore omits the branch. Its contract states that ValueError comes
  only from the `user` attribute refusing a value or from `save` refusing a whitelisted
  primary key.
- UpdateProfile: only database columns count as attributes. Python's `hasattr` is also
  true for methods and properties such as `pk` or `user_id`; a caller-supplied
  whitelist naming one of those is not modelled. A saved profile stays under the user
  it was loaded for, even if a caller whitelists `user` and changes it.
- GetFriends: its own contract only bounds the result by the user set. The
  characterisation in each mode is stated by `MutualFriendsIff` and `AcceptedFriendsIff`.
  The result is a set, so it has no duplicates. The runtime `hasattr` probe that picks
  the mode is replaced by the `FriendMode` argument.
- GetNotifications returns notification ids rather than the notification objects. The
  order among notifications created at the same tick is left open, as the query leaves it.
- Wall-clock times (`timezone.now`, `auto_now_add`) are a logical clock. Django keeps a
  separate key sequence per table; the model uses a single counter.
- File and image storage, user names and flags, and the chat's `name` and `created_at`
  carry no behaviour here and are left out. Users are created outside the core; the
  model takes the user set as given.

=== FILE: models.dfy ===
/** The records of the chat application and the in-memory store that holds them.
    Every foreign key is an id; the store's well-formedness says that no record
    refers to a missing user or message, which the cascading deletes preserve. */
module Models {
  import opened Outcomes

  type UserId = nat
  /** Primary key of a message, attachment, notification, friend request, chat or profile. */
  type RecordId = nat
  /** A tick of the logical clock that stands for wall-clock creation times. */
  type Time = nat

  /** A value stored in a profile column (or supplied for one by a caller);
      `Ref(id)` is the user instance with that id. */
  datatype Value = Null | Int(i: int) | Text(s: string) | Ref(id: nat)

  /** A profile is its attributes by name; an attribute exists iff its name is a key. */
  datatype Profile = Profile(fields: map<string, Value>)

  datatype Message = Message(sender: UserId, content: string, timestamp: Time)

  datatype Attachment = Attachment(message: RecordId, addedBy: UserId, uploadedAt: Time)

  datatype Notification = Notification(user: UserId, message: RecordId, isRead: bool, createdAt: Time)

  datatype FriendRequest = FriendRequest(id: RecordId, fromUser: UserId, toUser: UserId, createdAt: Time)

  datatype Chat = Chat(creator: UserId, members: set<UserId>)

  /** The database. Profiles are keyed by their user (one-to-one) and friend
      requests by their ordered pair (unique together), so both uniqueness
      constraints hold by construction. */
  datatype Store = Store(
    users: set<UserId>,
    profiles: map<UserId, Profile>,
    messages: map<RecordId, Message>,
    attachments: map<RecordId, Attachment>,
    notifications: map<RecordId, Notification>,
    requests: map<(UserId, UserId), FriendRequest>,
    chats: map<RecordId, Chat>,
    nextId: RecordId,
    clock: Time)

  /** The profile table's definition: the value each column takes when a row is
      created without it, and the columns the database refuses to hold NULL in. */
  datatype Schema = Schema(profileDefaults: map<string, Value>, notNull: set<string>)

  /** The profile columns of the shown schema. */
  const ProfileColumns: set<string> := {"id", "user", "age", "image", "bio"}

  /** The profile's primary-key column. */
  const PrimaryKey: string := "id"

  /** The profile's one-to-one link to its user. */
  const UserColumn: string := "user"

  /** The shown schema: `age` is a non-null integer with no default, `image` and
      `bio` are nullable and default to NULL. */
  const ShownSchema: Schema :=
    Schema(map["age" := Null, "image" := Null, "bio" := Null], {"id", "user", "age"})

  /** Each friend request is stored under its own (from_user, to_user) pair. */
  predicate RequestKeysMatch(s: Store) {
    forall k :: k in s.requests ==> s.requests[k].fromUser == k.0 && s.requests[k].toUser == k.1
  }

  /** No record refers to a missing user or message. */
  predicate NoDangling(s: Store) {
    && s.profiles.Keys <= s.users
    && (forall m :: m in s.messages ==> s.messages[m].sender in s.users)
    && (forall a :: a in s.attachments ==>
          s.attachments[a].message in s.messages && s.attachments[a].addedBy in s.users)
    && (forall n :: n in s.notifications ==>
          s.notifications[n].user in s.users && s.notifications[n].message in s.messages)
    && (forall k :: k in s.requests ==> k.0 in s.users && k.1 in s.users)
    && (forall c :: c in s.chats ==> s.chats[c].creator in s.users && s.chats[c].members <= s.users)
  }

  /** A profile's primary key, when it holds one, is below `n`. */
  predicate ProfileIdBelow(p: Profile, n: RecordId) {
    PrimaryKey in p.fields && p.fields[PrimaryKey].Int? ==> p.fields[PrimaryKey].i < n
  }

  /** Every primary key handed out so far is below the next one. */
  predicate IdsBelowNext(s: Store) {
    && (forall v :: v in s.profiles ==> ProfileIdBelow(s.profiles[v], s.nextId))
    && (forall m :: m in s.messages ==> m < s.nextId)
    && (forall a :: a in s.attachments ==> a < s.nextId)
    && (forall n :: n in s.notifications ==> n < s.nextId)
    && (forall c :: c in s.chats ==> c < s.nextId)
    && (forall k :: k in s.requests ==> s.requests[k].id < s.nextId)
  }

  /** Distinct friend-request rows have distinct primary keys. */
  predicate RequestIdsDistinct(s: Store) {
    forall k1, k2 :: k1 in s.requests && k2 in s.requests && k1 != k2 ==>
      s.requests[k1].id != s.requests[k2].id
  }

  predicate WellFormed(s: Store) {
    RequestKeysMatch(s) && NoDangling(s) && IdsBelowNext(s) && RequestIdsDistinct(s)
  }

  /** In a well-formed store, two friend-request rows with the same
      (from_user, to_user) are the same row. */
  lemma AtMostOneRequestPerPair(s: Store, k1: (UserId, UserId), k2: (UserId, UserId))
    requires WellFormed(s)
    requires k1 in s.requests && k2 in s.requests
    requires s.requests[k1].fromUser == s.requests[k2].fromUser
    requires s.requests[k1].toUser == s.requests[k2].toUser
    ensures k1 == k2 && s.requests[k1] == s.requests[k2]
  {
  }

  /** `Notification.objects.create(user=u, message=m)`: a new, unread
      notification under a fresh id, or IntegrityError for a dangling key. */
  function CreateNotification(s: Store, u: UserId, m: RecordId): (r: (Store, Result<RecordId>))
    ensures r.1.Ok? <==> u in s.users && m in s.messages
    ensures r.1.Err? ==> r.0 == s && r.1.error == IntegrityError
    ensures r.1.Ok? ==>
      var id := r.1.value;
      && (IdsBelowNext(s) ==> id !in s.notifications)
      && r.0.notifications.Keys == s.notifications.Keys + {id}
      && r.0.notifications[id].user == u
      && r.0.notifications[id].message == m
      && !r.0.notifications[id].isRead
      && r.0.notifications[id].createdAt == s.clock
      && (IdsBelowNext(s) ==> forall n :: n in s.notifications ==> r.0.notifications[n] == s.notifications[n])
      && r.0.users == s.users && r.0.messages == s.messages && r.0.requests == s.requests
      && r.0.profiles == s.profiles && r.0.attachments == s.attachments && r.0.chats == s.chats
    ensures WellFormed(s) ==> WellFormed(r.0)
  {
    if u in s.users && m in s.messages then
      var id := s.nextId;
      (s.(notifications := s.notifications[id := Notification(u, m, false, s.clock)],
          nextId := id + 1, clock := s.clock + 1),
       Ok(id))
    else
      (s, Err(IntegrityError))
  }

  /** Deleting a message: its notifications and attachments go with it. */
  function DeleteMessage(s: Store, m: RecordId): (s': Store)
    ensures m !in s'.messages
    ensures forall x :: x in s.messages && x != m ==> x in s'.messages && s'.messages[x] == s.messages[x]
    ensures s'.messages.Keys <= s.messages.Keys
    ensures forall n :: n in s'.notifications <==> n in s.notifications && s.notifications[n].message != m
    ensures forall n :: n in s'.notifications ==> s'.notifications[n] == s.notifications[n]
    ensures forall a :: a in s'.attachments <==> a in s.attachments && s.attachments[a].message != m
    ensures forall a :: a in s'.attachments ==> s'.attachments[a] == s.attachments[a]
    ensures s'.users == s.users && s'.profiles == s.profiles && s'.requests == s.requests
    ensures s'.chats == s.chats
    ensures WellFormed(s) ==> WellFormed(s')
  {
    s.(messages := s.messages - {m},
       notifications := map n | n in s.notifications && s.notifications[n].message != m :: s.notifications[n],
       attachments := map a | a in s.attachments && s.attachments[a].message != m :: s.attachments[a])
  }

  /** The messages a user sent, which go when the user goes. */
  function SentBy(s: Store, u: UserId): set<RecordId> {
    set m | m in s.messages && s.messages[m].sender == u
  }

  /** Deleting a user: their profile, the messages they sent (with those
      messages' notifications and attachments), their own notifications and
      attachments, friend requests in either direction and the chats they
      created go; they leave the member lists of every other chat. */
  function DeleteUser(s: Store, u: UserId): (s': Store)
    ensures s'.users == s.users - {u}
    ensures s'.profiles.Keys == s.profiles.Keys - {u}
    ensures forall v :: v in s'.profiles ==> s'.profiles[v] == s.profiles[v]
    ensures forall m :: m in s'.messages <==> m in s.messages && s.messages[m].sender != u
    ensures forall m :: m in s'.messages ==> s'.messages[m] == s.messages[m]
    ensures forall n :: n in s'.notifications <==>
      && n in s.notifications
      && s.notifications[n].user != u
      && (s.notifications[n].message in s'.messages || s.notifications[n].message !in s.messages)
    ensures forall n :: n in s'.notifications ==> s'.notifications[n] == s.notifications[n]
    ensures forall a :: a in s'.attachments <==>
      && a in s.attachments
      && s.attachments[a].addedBy != u
      && (s.attachments[a].message in s'.messages || s.attachments[a].message !in s.messages)
    ensures forall a :: a in s'.attachments ==> s'.attachments[a] == s.attachments[a]
    ensures forall k :: k in s'.requests <==> k in s.requests && k.0 != u && k.1 != u
    ensures forall k :: k in s'.requests ==> s'.requests[k] == s.requests[k]
    ensures forall c :: c in s'.chats <==> c in s.chats && s.chats[c].creator != u
    ensures forall c :: c in s'.chats ==>
      s'.chats[c] == s.chats[c].(members := s.chats[c].members - {u})
    ensures WellFormed(s) ==> WellFormed(s')
  {
    var gone := SentBy(s, u);
    s.(users := s.users - {u},
       profiles := s.profiles - {u},
       messages := map m | m in s.messages && s.messages[m].sender != u :: s.messages[m],
       attachments := map a | a in s.attachments && s.attachments[a].addedBy != u
                                && s.attachments[a].message !in gone :: s.attachments[a],
       notifications := map n | n in s.notifications && s.notifications[n].user != u
                                && s.notifications[n].message !in gone :: s.notifications[n],
       requests := map k | k in s.requests && k.0 != u && k.1 != u :: s.requests[k],
       chats := map c | c in s.chats && s.chats[c].creator != u
                        :: s.chats[c].(members := s.chats[c].members - {u}))
  }

  /** After a user is deleted from a well-formed store, nothing refers to them. */
  lemma DeleteUserLeavesNoTrace(s: Store, u: UserId)
    requires WellFormed(s)
    ensures var s' := DeleteUser(s, u);
      && u !in s'.users
      && u !in s'.profiles
      && (forall m :: m in s'.messages ==> s'.messages[m].sender != u)
      && (forall n :: n in s'.notifications ==> s'.notifications[n].user != u)
      && (forall a :: a in s'.attachments ==> s'.attachments[a].addedBy != u)
      && (forall k :: k in s'.requests ==> s'.requests[k].fromUser != u && s'.requests[k].toUser != u)
      && (forall c :: c in s'.chats ==> s'.chats[c].creator != u && u !in s'.chats[c].members)
  {
    var s' := DeleteUser(s, u);
    assert WellFormed(s');
  }
}

=== FILE: outcomes.dfy ===
/** Failure-carrying result types shared by the store and the services. */
module Outcomes {

  /** An optional value: Python's `Optional[...]`, where `None` means absent. */
  datatype Option<+T> = None | Some(value: T)

  /** The exceptions the services raise themselves or let propagate. */
  datatype Error =
    | ValueError       // a bad argument: a self friend request, a non-user value assigned
                       // to a profile's `user`, or a primary key named in `update_fields`
    | ValidationError  // raised by model validation (`full_clean`)
    | IntegrityError   // raised by the database for a violated constraint

  /** Either a value or the exception that was raised instead. */
  datatype Result<+T> = Ok(value: T) | Err(error: Error)
}

=== FILE: user_services.dfy ===
/** The user-side services: profiles, friend requests and notifications, each a
    transition of the store that returns the new store and the call's outcome. */
module UserServices {
  import opened Outcomes
  import opened Models

  /** The store after a call, and what the call returned or raised. */
  datatype Step<T> = Step(store: Store, result: T)

  // ---------------------------------------------------------------- profiles

  /** The row `Profile.objects.create(user=u)` inserts: every column at its
      default, with the next primary key and `user` set. */
  function NewProfile(schema: Schema, id: RecordId, u: UserId): Profile {
    Profile(schema.profileDefaults[PrimaryKey := Int(id)][UserColumn := Ref(u)])
  }

  /** The database accepts the row: no NOT NULL column holds NULL. */
  predicate Insertable(schema: Schema, p: Profile) {
    forall c :: c in schema.notNull ==> c in p.fields && p.fields[c] != Null
  }

  /** The user's profile, created on the spot when missing. Creation is an
      insert that the database refuses (IntegrityError) for an unknown user or
      a NULL in a NOT NULL column. */
  function GetOrCreateProfile(s: Store, u: UserId, schema: Schema): (st: Step<Result<Profile>>)
    ensures u in s.profiles ==> st == Step(s, Ok(s.profiles[u]))
    ensures st.result.Err? ==> st.store == s && st.result.error == IntegrityError
    ensures u !in s.profiles ==>
      (st.result.Ok? <==> u in s.users && Insertable(schema, NewProfile(schema, s.nextId, u)))
    ensures st.result.Ok? ==>
      && st.store.profiles.Keys == s.profiles.Keys + {u}
      && st.store.profiles[u] == st.result.value
      && (forall v :: v in s.profiles ==> st.store.profiles[v] == s.profiles[v])
      && st.store == s.(profiles := st.store.profiles, nextId := st.store.nextId)
  {
    if u in s.profiles then
      Step(s, Ok(s.profiles[u]))
    else
      var p := NewProfile(schema, s.nextId, u);
      if u in s.users && Insertable(schema, p) then
        Step(s.(profiles := s.profiles[u := p], nextId := s.nextId + 1), Ok(p))
      else
        Step(s, Err(IntegrityError))
  }

  /** `get_profile(user, create_if_missing)`. */
  function GetProfile(s: Store, u: UserId, createIfMissing: bool, schema: Schema): (st: Step<Result<Option<Profile>>>)
    ensures u in s.profiles ==> st == Step(s, Ok(Some(s.profiles[u])))
    ensures !createIfMissing ==> st.store == s && st.result.Ok?
    ensures !createIfMissing ==> (st.result.value.None? <==> u !in s.profiles)
    ensures createIfMissing ==> st.result != Ok(None)
    ensures createIfMissing && st.result.Ok? ==>
      && u in st.store.profiles
      && st.result.value == Some(st.store.profiles[u])
      && st.store.profiles.Keys == s.profiles.Keys + {u}
      && (forall v :: v in s.profiles ==> st.store.profiles[v] == s.profiles[v])
    ensures st.result.Err? ==> st.store == s && st.result.error == IntegrityError
    // nothing outside the profile table and the key counter changes
    ensures st.store == s.(profiles := st.store.profiles, nextId := st.store.nextId)
  {
    if u in s.profiles then
      Step(s, Ok(Some(s.profiles[u])))
    else if createIfMissing then
      var got := GetOrCreateProfile(s, u, schema);
      match got.result
      case Ok(p) => Step(got.store, Ok(Some(p)))
      case Err(e) => Step(got.store, Err(e))
    else
      Step(s, Ok(None))
  }

  /** Asking for a profile with creation a second time finds the one the first
      call left, and changes nothing. */
  lemma GetProfileCreateIdempotent(s: Store, u: UserId, schema: Schema)
    ensures var first := GetProfile(s, u, true, schema);
      first.result.Ok? ==> GetProfile(first.store, u, true, schema) == first
  {
    var first := GetProfile(s, u, true, schema);
    if first.result.Ok? {
      assert u in first.store.profiles;
      assert first.result == Ok(Some(first.store.profiles[u]));
    }
  }

  /** With the shown schema a missing profile can never be created: `age` is
      NOT NULL and has no default, so the insert fails and nothing changes. */
  lemma ShownSchemaCannotCreateProfile(s: Store, u: UserId)
    requires u !in s.profiles
    ensures GetProfile(s, u, true, ShownSchema) == Step(s, Err(IntegrityError))
  {
    assert !Insertable(ShownSchema, NewProfile(ShownSchema, s.nextId, u)) by {
      assert "age" in ShownSchema.notNull;
      assert NewProfile(ShownSchema, s.nextId, u).fields["age"] == Null;
    }
  }

  /** With a schema whose defaults fill every NOT NULL column, creation for a
      known user succeeds and leaves exactly one profile for them. */
  lemma CreateSucceedsWithDefaults(s: Store, u: UserId, schema: Schema)
    requires u in s.users && u !in s.profiles
    requires forall c :: c in schema.notNull && c != "id" && c != "user" ==>
               c in schema.profileDefaults && schema.profileDefaults[c] != Null
    ensures var st := GetProfile(s, u, true, schema);
      && st.result.Ok?
      && st.store.profiles.Keys == s.profiles.Keys + {u}
      && st.result.value == Some(NewProfile(schema, s.nextId, u))
  {
    var p := NewProfile(schema, s.nextId, u);
    forall c | c in schema.notNull
      ensures c in p.fields && p.fields[c] != Null
    {
      if c != "id" && c != "user" {
        assert p.fields[c] == schema.profileDefaults[c];
      }
    }
  }

  /** The shown schema's newly created row has exactly the profile columns. */
  lemma NewProfileHasColumns(id: RecordId, u: UserId)
    ensures NewProfile(ShownSchema, id, u).fields.Keys == ProfileColumns
  {
  }

  /** The whitelist `update_profile` uses when the caller gives none. */
  const DefaultAllowedFields: set<string> := {"bio", "age", "image", "display_name"}

  /** The keys of `data` that `update_profile` writes: whitelisted and an
      attribute of the profile. */
  function Applicable(p: Profile, data: map<string, Value>, allowed: set<string>): set<string> {
    set k | k in data && k in allowed && k in p.fields
  }

  /** Reference definition of the update: every applicable key takes the
      supplied value, every other attribute keeps its own. */
  function Overlay(p: Profile, data: map<string, Value>, allowed: set<string>): Profile {
    Profile(map k | k in p.fields :: if k in data && k in allowed then data[k] else p.fields[k])
  }

  /** `profile.save(update_fields=names)`: the stored row takes the in-memory
      value of each named column and keeps its own value of every other one. */
  function SaveFields(stored: Profile, mem: Profile, names: set<string>): Profile {
    Profile(map k | k in stored.fields ::
      if k in names && k in mem.fields then mem.fields[k] else stored.fields[k])
  }

  /** The columns `update_profile` asks `save` to write: every whitelisted name
      that is an attribute of the profile, changed or not. */
  function UpdateFields(p: Profile, allowed: set<string>): set<string> {
    set f | f in allowed && f in p.fields
  }

  /** Django's `save(update_fields=names)` raises ValueError, writing nothing,
      when `names` includes the primary key. */
  predicate SaveRefused(names: set<string>) {
    PrimaryKey in names
  }

  /** Saving the whitelisted columns of an overlay writes back exactly the
      overlay: the columns left out of the save were not changed in memory. */
  lemma SaveOfOverlay(p: Profile, data: map<string, Value>, allowed: set<string>)
    ensures var q := Overlay(p, data, allowed);
      SaveFields(p, q, UpdateFields(q, allowed)) == q
  {
    var q := Overlay(p, data, allowed);
    var saved := SaveFields(p, q, UpdateFields(q, allowed));
    assert saved.fields == q.fields;
  }

  /** The one-to-one `user` attribute accepts only None or a user instance;
      assigning anything else raises ValueError at the assignment itself. */
  predicate AssignRefused(field: string, v: Value) {
    field == UserColumn && !(v.Null? || v.Ref?)
  }

  /** The walk reaches an assignment to `user` that the attribute refuses. */
  predicate SetattrRefused(p: Profile, data: map<string, Value>, allowed: set<string>) {
    UserColumn in data && UserColumn in allowed && UserColumn in p.fields
    && AssignRefused(UserColumn, data[UserColumn])
  }

  /** The walk over `data` in `update_profile`: each key that is whitelisted
      and an attribute of the profile is assigned; `changed` records whether
      any was. An assignment the `user` attribute refuses stops the walk
      with `refused` set. */
  method ApplyData(profile: Profile, data: map<string, Value>, allowed: set<string>)
    returns (p: Profile, changed: bool, refused: bool)
    ensures refused <==> SetattrRefused(profile, data, allowed)
    ensures !refused ==> p == Overlay(profile, data, allowed)
    ensures !refused ==> (changed <==> Applicable(profile, data, allowed) != {})
  {
    p := profile;
    changed := false;
    refused := false;
    var pending := data.Keys;
    while pending != {}
      invariant pending <= data.Keys
      invariant p.fields.Keys == profile.fields.Keys
      invariant forall k :: k in profile.fields ==>
        p.fields[k] == (if k in data && k !in pending && k in allowed then data[k] else profile.fields[k])
      invariant changed <==> exists k :: k in Applicable(profile, data, allowed) && k !in pending
      invariant SetattrRefused(profile, data, allowed) ==> UserColumn in pending
      decreases pending
    {
      var field :| field in pending;
      if field in allowed && field in p.fields {
        if AssignRefused(field, data[field]) {
          return p, changed, true;
        }
        p := Profile(p.fields[field := data[field]]);
        changed := true;
      }
      pending := pending - {field};
    }
  }

  /** With nothing applicable, the overlay is the profile itself. */
  lemma OverlayOfNothing(p: Profile, data: map<string, Value>, allowed: set<string>)
    requires Applicable(p, data, allowed) == {}
    ensures Overlay(p, data, allowed) == p
  {
    forall k | k in p.fields
      ensures Overlay(p, data, allowed).fields[k] == p.fields[k]
    {
      assert k !in Applicable(p, data, allowed);
    }
    assert Overlay(p, data, allowed).fields == p.fields;
  }

  /** `update_profile(user, data, allowed_fields)`. */
  method UpdateProfile(s: Store, u: UserId, data: map<string, Value>, allowedFields: Option<set<string>>,
                       schema: Schema, valid: Profile -> bool)
    returns (s': Store, r: Result<Profile>)
    // the profile could not be obtained: the creation error propagates, nothing changes
    ensures GetOrCreateProfile(s, u, schema).result.Err? ==> s' == s && r == Err(IntegrityError)
    ensures
      var got := GetOrCreateProfile(s, u, schema);
      var allowed := if allowedFields.Some? then allowedFields.value else DefaultAllowedFields;
      got.result.Ok? ==>
        var p := got.result.value;
        var q := Overlay(p, data, allowed);
        var applies := Applicable(p, data, allowed) != {};
        var refused := SetattrRefused(p, data, allowed);
        // only whitelisted attributes are written, each with the supplied value
        && (r.Ok? ==> r.value.fields.Keys == p.fields.Keys)
        && (r.Ok? ==> forall k :: k in p.fields ==>
              r.value.fields[k] == (if k in data && k in allowed then data[k] else p.fields[k]))
        // nothing applies: the profile comes back as it was and is not saved
        && (!applies ==> s' == got.store && r == Ok(p))
        // the `user` attribute refuses its value: ValueError before validation, nothing saved
        && (refused ==> s' == got.store && r == Err(ValueError))
        // validation fails: the error propagates, the stored profile is untouched
        && (applies && !refused && !valid(q) ==> s' == got.store && r == Err(ValidationError))
        // ValueError exactly when the assignment or the save refuses
        && (r == Err(ValueError) <==>
              refused || (applies && valid(q) && SaveRefused(UpdateFields(p, allowed))))
        && (r == Err(ValueError) ==> s' == got.store)
        // a valid update that applies is saved and returned
        && (applies && !refused && valid(q) && !SaveRefused(UpdateFields(p, allowed)) ==>
              r == Ok(q) && s' == got.store.(profiles := got.store.profiles[u := q]))
        // whatever is returned is what is stored, and only this user's profile changes
        && (r.Ok? ==> u in s'.profiles && s'.profiles[u] == r.value)
        && s'.profiles.Keys == got.store.profiles.Keys
        && (forall v :: v in s'.profiles && v != u ==> s'.profiles[v] == got.store.profiles[v])
        && s' == got.store.(profiles := s'.profiles)
    // the primary key is never rewritten, so a well-formed store stays well-formed
    ensures WellFormed(s) ==> WellFormed(s')
  {
    var got := GetOrCreateProfile(s, u, schema);
    GetOrCreatePreservesWellFormed(s, u, schema);
    if got.result.Err? {
      return s, Err(got.result.error);
    }
    var profile := got.result.value;
    var allowed := if allowedFields.Some? then allowedFields.value else DefaultAllowedFields;
    var p, changed, refused := ApplyData(profile, data, allowed);
    if refused {
      assert UserColumn in Applicable(profile, data, allowed);
      return got.store, Err(ValueError);
    }
    if !changed {
      OverlayOfNothing(profile, data, allowed);
      return got.store, Ok(p);
    }
    if !valid(p) {
      return got.store, Err(ValidationError);
    }
    var names := UpdateFields(p, allowed);
    assert names == UpdateFields(profile, allowed);
    if SaveRefused(names) {
      return got.store, Err(ValueError);
    }
    SaveOfOverlay(profile, data, allowed);
    var saved := SaveFields(got.store.profiles[u], p, names);
    assert PrimaryKey !in names;
    SaveKeepsWellFormed(got.store, u, saved);
    s' := got.store.(profiles := got.store.profiles[u := saved]);
    r := Ok(p);
  }

  /** Getting or creating a profile keeps a well-formed store well-formed:
      the new row takes the next primary key, which is then advanced. */
  lemma GetOrCreatePreservesWellFormed(s: Store, u: UserId, schema: Schema)
    ensures WellFormed(s) ==> WellFormed(GetOrCreateProfile(s, u, schema).store)
  {
    var st := GetOrCreateProfile(s, u, schema);
    assert st.store.profiles.Keys <= s.profiles.Keys + {u};
  }

  /** In a well-formed store, a newly created profile's primary key differs
      from the key of every profile already stored. */
  lemma CreatedProfileIdFresh(s: Store, u: UserId, schema: Schema)
    requires WellFormed(s)
    requires u !in s.profiles && GetOrCreateProfile(s, u, schema).result.Ok?
    ensures var p := GetOrCreateProfile(s, u, schema).result.value;
      && p.fields[PrimaryKey] == Int(s.nextId)
      && forall v :: v in s.profiles && PrimaryKey in s.profiles[v].fields ==>
           s.profiles[v].fields[PrimaryKey] != p.fields[PrimaryKey]
  {
  }

  /** Writing back a user's profile whose primary key is still below the
      counter keeps the store well-formed. */
  lemma SaveKeepsWellFormed(t: Store, u: UserId, q: Profile)
    requires u in t.profiles
    requires ProfileIdBelow(t.profiles[u], t.nextId) ==> ProfileIdBelow(q, t.nextId)
    ensures WellFormed(t) ==> WellFormed(t.(profiles := t.profiles[u := q]))
  {
  }

  /** The default whitelist names `display_name`, which is no profile
      attribute; on a profile with the shown columns it is never written.
      The default whitelist leaves `user` out, so it never makes the
      assignment raise. */
  lemma DefaultWhitelistDropsDisplayName(p: Profile, data: map<string, Value>)
    requires p.fields.Keys == ProfileColumns
    ensures Applicable(p, data, DefaultAllowedFields) <= {"bio", "age", "image"}
    ensures "display_name" !in Overlay(p, data, DefaultAllowedFields).fields
    ensures !SetattrRefused(p, data, DefaultAllowedFields)
  {
  }

  // --------------------------------------------------------- friend requests

  /** `send_friend_request(from_user, to_user)`: refuse a self request, then
      get-or-create the request on the (from_user, to_user) pair. */
  function SendFriendRequest(s: Store, a: UserId, b: UserId): (st: Step<Result<FriendRequest>>)
    ensures a == b ==> st == Step(s, Err(ValueError))
    ensures a != b && (a, b) in s.requests ==> st == Step(s, Ok(s.requests[(a, b)]))
    ensures a != b && (a, b) !in s.requests ==> (st.result.Ok? <==> a in s.users && b in s.users)
    ensures a != b && (a, b) !in s.requests && !(a in s.users && b in s.users) ==>
      st.result == Err(IntegrityError)
    ensures st.result.Err? ==> st.store == s
    ensures st.result.Ok? ==>
      && (a, b) in st.store.requests
      && st.store.requests[(a, b)] == st.result.value
      && st.store.requests.Keys == s.requests.Keys + {(a, b)}
      && (forall k :: k in s.requests ==> st.store.requests[k] == s.requests[k])
    ensures (a, b) !in s.requests && st.result.Ok? ==>
      && st.result.value.fromUser == a && st.result.value.toUser == b
      && |st.store.requests| == |s.requests| + 1
    ensures st.store == s.(requests := st.store.requests, nextId := st.store.nextId, clock := st.store.clock)
  {
    if a == b then
      Step(s, Err(ValueError))
    else if (a, b) in s.requests then
      Step(s, Ok(s.requests[(a, b)]))
    else if a in s.users && b in s.users then
      var fr := FriendRequest(s.nextId, a, b, s.clock);
      Step(s.(requests := s.requests[(a, b) := fr], nextId := s.nextId + 1, clock := s.clock + 1), Ok(fr))
    else
      Step(s, Err(IntegrityError))
  }

  /** Sending the same request twice: the second call returns what the first
      returned and leaves the store as the first left it. */
  lemma SendFriendRequestIdempotent(s: Store, a: UserId, b: UserId)
    ensures var first := SendFriendRequest(s, a, b);
      SendFriendRequest(first.store, a, b) == first
  {
    var first := SendFriendRequest(s, a, b);
    if a != b && first.result.Ok? {
      assert (a, b) in first.store.requests;
    }
  }

  /** Inserting a request for a new pair of known users under the next id,
      and advancing the counters, keeps a store well-formed. */
  lemma AddRequestPreservesWellFormed(s: Store, a: UserId, b: UserId)
    requires WellFormed(s)
    requires (a, b) !in s.requests && a in s.users && b in s.users
    ensures WellFormed(s.(requests := s.requests[(a, b) := FriendRequest(s.nextId, a, b, s.clock)],
                          nextId := s.nextId + 1, clock := s.clock + 1))
  {
    var s' := s.(requests := s.requests[(a, b) := FriendRequest(s.nextId, a, b, s.clock)],
                 nextId := s.nextId + 1, clock := s.clock + 1);
    forall k1, k2 | k1 in s'.requests && k2 in s'.requests && k1 != k2
      ensures s'.requests[k1].id != s'.requests[k2].id
    {
      if k1 == (a, b) {
        assert s'.requests[k2].id < s.nextId;
      } else if k2 == (a, b) {
        assert s'.requests[k1].id < s.nextId;
      }
    }
  }

  lemma SendFriendRequestPreservesWellFormed(s: Store, a: UserId, b: UserId)
    requires WellFormed(s)
    ensures WellFormed(SendFriendRequest(s, a, b).store)
  {
    if a != b && (a, b) !in s.requests && a in s.users && b in s.users {
      AddRequestPreservesWellFormed(s, a, b);
    }
  }

  /** No friend request has the same user at both ends. Nothing in the schema
      forbids one; only `send_friend_request`'s check keeps them out. */
  predicate NoSelfRequests(s: Store) {
    forall k :: k in s.requests ==> k.0 != k.1
  }

  lemma SendFriendRequestKeepsNoSelfRequests(s: Store, a: UserId, b: UserId)
    requires NoSelfRequests(s)
    ensures NoSelfRequests(SendFriendRequest(s, a, b).store)
  {
  }

  /** How friendship is read off the friend requests: from the mutual requests
      (the schema has no acceptance flag), or from an acceptance flag. */
  datatype FriendMode = Mutual | AcceptedFlag(accepted: FriendRequest -> bool)

  /** `get_friends(user)`, written as the two Django queries of `get_friends`. */
  function GetFriends(s: Store, u: UserId, mode: FriendMode): (friends: set<UserId>)
    ensures friends <= s.users
  {
    match mode
    case Mutual =>
      var sentTo := set k | k in s.requests && k.0 == u :: k.1;
      var mutual := set k | k in s.requests && k.0 in sentTo && k.1 == u :: k.0;
      s.users * mutual
    case AcceptedFlag(accepted) =>
      var sent := set k | k in s.requests && k.0 == u && accepted(s.requests[k]) :: k.1;
      var received := set k | k in s.requests && k.1 == u && accepted(s.requests[k]) :: k.0;
      s.users * (sent + received)
  }

  /** Without an acceptance flag, v is a friend of u exactly when both u→v
      and v→u requests exist. */
  lemma MutualFriendsIff(s: Store, u: UserId, v: UserId)
    requires NoDangling(s)
    ensures v in GetFriends(s, u, Mutual) <==> (u, v) in s.requests && (v, u) in s.requests
  {
    if (u, v) in s.requests && (v, u) in s.requests {
      var sentTo := set k | k in s.requests && k.0 == u :: k.1;
      assert v in sentTo;
      assert (v, u) in s.requests && (v, u).0 in sentTo;
    }
  }

  /** With an acceptance flag, v is a friend of u exactly when an accepted
      request joins them in either direction. */
  lemma AcceptedFriendsIff(s: Store, u: UserId, v: UserId, accepted: FriendRequest -> bool)
    requires NoDangling(s)
    ensures v in GetFriends(s, u, AcceptedFlag(accepted)) <==>
      ((u, v) in s.requests && accepted(s.requests[(u, v)])) ||
      ((v, u) in s.requests && accepted(s.requests[(v, u)]))
  {
    if (u, v) in s.requests && accepted(s.requests[(u, v)]) {
      assert v == (u, v).1;
    }
    if (v, u) in s.requests && accepted(s.requests[(v, u)]) {
      assert v == (v, u).0;
    }
  }

  /** Friendship is symmetric, whichever way it is read. */
  lemma FriendsSymmetric(s: Store, u: UserId, v: UserId, mode: FriendMode)
    requires NoDangling(s)
    ensures v in GetFriends(s, u, mode) <==> u in GetFriends(s, v, mode)
  {
    match mode
    case Mutual =>
      MutualFriendsIff(s, u, v);
      MutualFriendsIff(s, v, u);
    case AcceptedFlag(accepted) =>
      AcceptedFriendsIff(s, u, v, accepted);
      AcceptedFriendsIff(s, v, u, accepted);
  }

  /** A store without self requests makes nobody their own friend. */
  lemma NobodyIsTheirOwnFriend(s: Store, u: UserId, mode: FriendMode)
    requires NoDangling(s) && NoSelfRequests(s)
    ensures u !in GetFriends(s, u, mode)
  {
    match mode
    case Mutual =>
      MutualFriendsIff(s, u, u);
    case AcceptedFlag(accepted) =>
      AcceptedFriendsIff(s, u, u, accepted);
  }

  // ----------------------------------------------------------- notifications

  /** The ids of u's notifications. */
  function NotificationsOf(s: Store, u: UserId): set<RecordId> {
    set n | n in s.notifications && s.notifications[n].user == u
  }

  /** The listed notifications go from newest to oldest. */
  predicate NewestFirst(ns: map<RecordId, Notification>, ids: seq<RecordId>)
    requires forall i :: 0 <= i < |ids| ==> ids[i] in ns
  {
    forall i, j :: 0 <= i < j < |ids| ==> ns[ids[i]].createdAt >= ns[ids[j]].createdAt
  }

  predicate Distinct(ids: seq<RecordId>) {
    forall i, j :: 0 <= i < j < |ids| ==> ids[i] != ids[j]
  }

  /** Some notification of a non-empty set is at least as new as all the others. */
  lemma {:induction false} NewestExists(ns: map<RecordId, Notification>, pending: set<RecordId>)
    requires pending != {} && pending <= ns.Keys
    ensures exists n :: n in pending && forall m :: m in pending ==> ns[m].createdAt <= ns[n].createdAt
    decreases pending
  {
    var x :| x in pending;
    var rest := pending - {x};
    if rest != {} {
      NewestExists(ns, rest);
      var y :| y in rest && forall m :: m in rest ==> ns[m].createdAt <= ns[y].createdAt;
      if ns[x].createdAt <= ns[y].createdAt {
        assert forall m :: m in pending ==> ns[m].createdAt <= ns[y].createdAt;
      } else {
        assert forall m :: m in pending ==> ns[m].createdAt <= ns[x].createdAt;
      }
    } else {
      assert pending == {x};
    }
  }

  /** The loop state of `GetNotifications`: `ids` lists, newest first, the
      notifications of `mine` already taken, every one at least as new as any
      still `pending`, and each of `mine` is taken or pending. */
  predicate Listing(ns: map<RecordId, Notification>, mine: set<RecordId>, pending: set<RecordId>, ids: seq<RecordId>) {
    && pending <= mine <= ns.Keys
    && (forall i :: 0 <= i < |ids| ==> ids[i] in mine && ids[i] !in pending)
    && (forall n :: n in mine ==> n in pending || n in ids)
    && Distinct(ids)
    && NewestFirst(ns, ids)
    && (forall i, m :: 0 <= i < |ids| && m in pending ==> ns[m].createdAt <= ns[ids[i]].createdAt)
  }

  /** Taking a newest pending notification keeps the listing in order. */
  lemma TakeNewest(ns: map<RecordId, Notification>, mine: set<RecordId>, pending: set<RecordId>,
                   ids: seq<RecordId>, n: RecordId)
    requires Listing(ns, mine, pending, ids)
    requires n in pending && forall m :: m in pending ==> ns[m].createdAt <= ns[n].createdAt
    ensures Listing(ns, mine, pending - {n}, ids + [n])
  {
    var ids' := ids + [n];
    assert forall i :: 0 <= i < |ids| ==> ids'[i] == ids[i];
    assert ids'[|ids|] == n;
  }

  /** Chooses a newest notification among `pending`; which one among equally
      new ones is left open. */
  method PickNewest(ns: map<RecordId, Notification>, pending: set<RecordId>) returns (n: RecordId)
    requires pending != {} && pending <= ns.Keys
    ensures n in pending && forall m :: m in pending ==> ns[m].createdAt <= ns[n].createdAt
  {
    NewestExists(ns, pending);
    n :| n in pending && forall m :: m in pending ==> ns[m].createdAt <= ns[n].createdAt;
  }

  /** A finished listing holds every notification of u, each once, newest first. */
  lemma ListingDone(s: Store, u: UserId, ids: seq<RecordId>)
    requires Listing(s.notifications, NotificationsOf(s, u), {}, ids)
    ensures forall i :: 0 <= i < |ids| ==> ids[i] in s.notifications && s.notifications[ids[i]].user == u
    ensures forall n :: n in s.notifications && s.notifications[n].user == u ==> n in ids
    ensures Distinct(ids) && NewestFirst(s.notifications, ids)
  {
    forall n | n in s.notifications && s.notifications[n].user == u
      ensures n in ids
    {
      assert n in NotificationsOf(s, u);
    }
  }

  /** `get_notifications(user)`: all of u's notifications and nothing else,
      each once, newest first. The order among equal creation times is left
      open, as the query leaves it. */
  method GetNotifications(s: Store, u: UserId) returns (ids: seq<RecordId>)
    ensures forall i :: 0 <= i < |ids| ==> ids[i] in s.notifications && s.notifications[ids[i]].user == u
    ensures forall n :: n in s.notifications && s.notifications[n].user == u ==> n in ids
    ensures Distinct(ids)
    ensures NewestFirst(s.notifications, ids)
  {
    var ns := s.notifications;
    var mine := NotificationsOf(s, u);
    var pending := mine;
    ids := [];
    while pending != {}
      invariant Listing(ns, mine, pending, ids)
      decreases pending
    {
      var n := PickNewest(ns, pending);
      TakeNewest(ns, mine, pending, ids, n);
      ids := ids + [n];
      pending := pending - {n};
    }
    ListingDone(s, u, ids);
  }

  /** `mark_notification_as_read(notification_id)`. */
  function MarkNotificationAsRead(s: Store, id: RecordId): (st: Step<Option<Notification>>)
    ensures st.result.None? <==> id !in s.notifications
    ensures st.result.None? ==> st.store == s
    ensures st.result.Some? ==>
      && st.result.value.isRead
      && st.result.value == s.notifications[id].(isRead := true)
      && id in st.store.notifications
      && st.store.notifications[id] == st.result.value
    ensures id in s.notifications && s.notifications[id].isRead ==> st.store == s
    ensures st.store.notifications.Keys == s.notifications.Keys
    ensures forall n :: n in s.notifications && n != id ==> st.store.notifications[n] == s.notifications[n]
    ensures st.store == s.(notifications := st.store.notifications)
  {
    if id !in s.notifications then
      Step(s, None)
    else
      var notif := s.notifications[id];
      if !notif.isRead then
        var read := notif.(isRead := true);
        Step(s.(notifications := s.notifications[id := read]), Some(read))
      else
        Step(s, Some(notif))
  }

  /** Marking a notification read a second time changes nothing and returns
      the same notification. */
  lemma MarkNotificationAsReadIdempotent(s: Store, id: RecordId)
    ensures var first := MarkNotificationAsRead(s, id);
      MarkNotificationAsRead(first.store, id) == first
  {
    var first := MarkNotificationAsRead(s, id);
    if id in s.notifications {
      assert first.store.notifications[id].isRead;
    }
  }

  /** `delete_notification(notification_id)`: true exactly when it existed. */
  function DeleteNotification(s: Store, id: RecordId): (st: Step<bool>)
    ensures st.result <==> id in s.notifications
    ensures id !in st.store.notifications
    ensures st.store.notifications.Keys == s.notifications.Keys - {id}
    ensures forall n :: n in st.store.notifications ==> st.store.notifications[n] == s.notifications[n]
    ensures st.store == s.(notifications := st.store.notifications)
  {
    if id in s.notifications then
      Step(s.(notifications := s.notifications - {id}), true)
    else
      Step(s, false)
  }

  /** A repeated delete finds nothing, returns false and changes nothing. */
  lemma DeleteNotificationTwice(s: Store, id: RecordId)
    ensures var first := DeleteNotification(s, id);
      DeleteNotification(first.store, id) == Step(first.store, false)
  {
    var first := DeleteNotification(s, id);
    assert id !in first.store.notifications;
  }

  lemma GetProfilePreservesWellFormed(s: Store, u: UserId, createIfMissing: bool, schema: Schema)
    requires WellFormed(s)
    ensures WellFormed(GetProfile(s, u, createIfMissing, schema).store)
  {
    GetOrCreatePreservesWellFormed(s, u, schema);
  }

  lemma MarkNotificationAsReadPreservesWellFormed(s: Store, id: RecordId)
    requires WellFormed(s)
    ensures WellFormed(MarkNotificationAsRead(s, id).store)
  {
  }

  lemma DeleteNotificationPreservesWellFormed(s: Store, id: RecordId)
    requires WellFormed(s)
    ensures WellFormed(DeleteNotification(s, id).store)
  {
  }
}
